=== FILE: README.md ===
# Tài/Xỉu prediction engine — a Dafny model

This project models the prediction engine of a dice-game ("Tài Xỉu", sic bo)
prediction server. The engine reads the history of rounds, newest first. Each
round's score (the sum of three dice) classifies it as Tài (`T`, 11..18) or
Xỉu (`X`, everything else). The engine then does four things:

- Three analyzers vote on the class of the next round:
  - streak and second-order transition table;
  - short- and long-window balance;
  - two four-entry templates.
- A weighted vote turns the three votes into a class and a confidence.
- The confidence is capped at 60 unless two analyzers back the winning class.
- A scorer ranks the seven sums of the chosen class and returns the three best.

Files and modules:

| file | module | models |
|---|---|---|
| basics.dfy | `Basics` | classes, tallies, `Math.round` of a percentage in exact integers |
| votes.dfy | `Votes` | an analyzer's result: optional class, certainty, description tag |
| sum_table.dfy | `SumTable` | `getTrueSumProbabilities`: the three-dice sum distribution |
| history.dfy | `History` | round records and `getHistoryStatus` |
| markov.dfy | `Markov` | `analyzeMarkovChainAndStreak` |
| balance.dfy | `Balance` | `analyzeMultiTimeframeBalance` |
| heuristic.dfy | `Heuristic` | `analyzeHeuristicPatterns` |
| ensemble.dfy | `Ensemble` | the weights, the voting loop, resolution and agreement dampening of `predictAdvanced` |
| sum_ranker.dfy | `SumRanker` | `predictSums` |
| engine.dfy | `Engine` | `predictAdvanced` end to end |

Modelling choices:

- **Numbers.** Certainties and weighted scores are integers. A percentage
  `Math.round(a / b * 100)` is computed exactly as `(200a + b) / (2b)`.
  `Basics.RoundPercentIsNearest` proves that this is the integer nearest to
  100·a/b, with a half rounding up.
- **Sum scores.** The scores of `predictSums` are Dafny `real`s: exact rationals.
- **Weights.** The weights are a parameter. The source's constant
  (`dynamicWeights`, every weight 1) is `Ensemble.DynamicWeights`.
- **Descriptions.** The analyzers' description strings are replaced by tags
  (`Votes.Reason`). Which tag is produced, and in what order, is modelled.
- **Models.** The breakdown is a list of entries, one per model with an
  opinion, where the source keeps an object keyed by model name. For the
  engine's three distinct models the two agree. The lemmas of `Ensemble`
  over arbitrary model lists count a repeated model once per entry, where
  the source's object would keep only its last entry.
- **Sorting.** The sort in `predictSums` is modelled as a stable insertion
  sort: an earlier entry stays ahead of later entries with the same score.
  `Object.entries` lists integer keys in ascending order, so equal scores end
  up with the smaller sum first.

The source's behaviour is kept as written, including these quirks:

- The transition table is keyed `(st[i-2], st[i-1])`, but it is looked up with
  `(st[1], st[0])`, the two newest classes in reversed order.
- Equal transition counts predict Xỉu.
- Every score outside 11..18 is Xỉu. This includes the 0 given to a missing
  score.
- The recent frequency of a sum is always divided by 70, however short the
  window is.
- The fallback at server.js:257-260 (Tài, confidence 50 and the default
  description) is never taken under the source's weights of 1. From five
  entries on, either the streak/transition analyzer or the pattern analyzer
  votes, so the weighted total is positive (Engine.DefaultNeverUsed). The
  model keeps the branch, and it is reachable with other weights.

## Model

| member | source | states |
|---|---|---|
| Basics.Opposite | server.js:103 | the inverse class of a long streak differs from the streak's class |
| Basics.RoundPercent | server.js:125 | for a share a ≤ b the rounded percentage lies in 0..100, and it is at least 50 when a is at least half of b |
| Basics.RoundPercentIsNearest | server.js:125 | the rounded percentage r satisfies r − 0.5 ≤ 100·a/b < r + 0.5, as `Math.round` does |
| Basics.RoundPercentOfHalf | server.js:125 | an exact half rounds to 50 |
| Basics.RoundPercentOfWhole | server.js:249 | a share that is the whole total rounds to 100 |
| SumTable.SumCounts | server.js:47-55 | the count table has exactly the sums that some roll produces, each with its number of rolls |
| SumTable.TrueSumProbabilities | server.js:46-62 | the probability table's keys are exactly 3..18, and each value times 216 is that sum's roll count, which is positive |
| SumTable.WaysClosed | server.js:48-55 | the triple loop counts, for each first die, the (second, third) pairs that complete the sum |
| SumTable.WaysOutside | server.js:48-55 | no roll sums outside 3..18 |
| SumTable.WaysSymmetric | server.js:48-55 | sums s and 21 − s have equally many rolls |
| SumTable.TotalOutcomesCounted | server.js:48-56 | the counts over all sums add up to `totalOutcomes` = 216, so the probabilities sum to 1 |
| SumTable.ClassesEquallyLikely | server.js:48-56 | the sums up to 10 and the sums from 11 each account for 108 of the 216 rolls |
| History.HistoryStatus | server.js:64-72 | one status per round, in order, with the round's game number; `tong` is the score, or 0 when it is missing; Tài exactly when the score is present and in 11..18, so a missing score is Xỉu; `chanle` is C exactly when `tong` is even |
| History.Classes | server.js:64-72 | one class per round, in order; the i-th class is Tài exactly when the i-th round has a score in 11..18 |
| History.DiceRollClass | server.js:69 | for any roll of three dice, Tài exactly when the sum is at least 11: the upper bound 18 never excludes a roll |
| History.ClassesSplitOutcomes | server.js:69 | the classification splits the 216 rolls into 108 Tài and 108 Xỉu |
| Markov.Streak | server.js:85-93 | the streak is 1..15 entries long, all equal to the newest, and the entry after it differs unless the cap of 15 or the end of the history stopped the loop |
| Markov.RunFrom | server.js:87-93 | from a matched prefix of length i, the loop ends on the first mismatch, the cap of 15, or the end of the history |
| Markov.Transitions | server.js:112-118 | every key in the table has a positive total, at most the number of positions visited, so the source's `total > 0` test never fails on a stored key |
| Markov.TransitionsCountFollowers | server.js:112-118 | the table holds a key exactly when some position follows it, and then its tallies count the Tài and Xỉu followers |
| Markov.AnalyzeMarkov | server.js:79-135 | the vote is well formed; fewer than 5 entries give no opinion |
| Markov.ShortStreakContinues | server.js:95-101 | a streak of 4..6 predicts its own class with certainty 50 + 5n, which is 70..80 |
| Markov.LongStreakReverses | server.js:102-109 | a streak of 7 or more predicts the other class with certainty 50 + 2(n − 7), which is 50..66, tagged as a reversal of that streak |
| Markov.TransitionFallback | server.js:112-134 | below a streak of 4, the vote comes from the followers of key (st[1], st[0]): none if there are none; Tài only on a strict majority; certainty is the rounded majority share; the tag names the key and the predicted class, or says there is no pattern |
| Markov.TransitionTieFavorsX | server.js:124-125 | equal follower counts predict Xỉu with certainty 50 |
| Balance.CountClasses | server.js:143-147 | the window's tallies are the number of Tài and Xỉu entries in it, and add up to its length |
| Balance.OddGap | server.js:146-152 | over 15 entries the lean is odd, so the short-window threshold of 4 only fires at 5 or more |
| Balance.EvenGap | server.js:147-162 | over 30 entries the lean is even, so the long-window threshold of 7 only fires at 8 or more |
| Balance.AnalyzeBalance | server.js:138-173 | the vote is well formed; fewer than 30 entries give no opinion; certainty never exceeds 80 |
| Balance.ShortWindowRebalances | server.js:152-160 | a lean of 4 or more over 15 entries predicts the minority class there with certainty min(10·lean, 80), which is 50, 70 or 80, tagged short-term |
| Balance.LongWindowRebalances | server.js:162-170 | failing that, a lean of 7 or more over 30 entries predicts the minority class there with certainty min(8·lean, 75), which is 64 or 75, tagged long-term |
| Balance.SteadyHistoryAbstains | server.js:172 | below both thresholds there is no opinion |
| Balance.TenToFiveExample | server.js:152-159 | 10 Tài and 5 Xỉu in the last 15 rounds predict Xỉu with certainty 50 |
| Heuristic.AnalyzeHeuristic | server.js:176-194 | with 5 or more entries there is an opinion exactly when st[0] ≠ st[1] and st[2] = st[3]; it is the class opposite st[3], with certainty 75 when st[1] = st[2] and 70 otherwise |
| Heuristic.TemplatesPartitionMatches | server.js:183-191 | the A-B-B-B template fires exactly on r0 ≠ r1 = r2 = r3, and the A-B-C-C template exactly on r0 ≠ r1 ≠ r2 = r3 |
| Heuristic.ThreeOneExample | server.js:183-186 | Xỉu followed by three Tài predicts Xỉu with certainty 75 |
| Ensemble.Agreement | server.js:263-268 | the agreement count never exceeds the number of breakdown entries, and it is zero exactly when no entry predicts the class |
| Ensemble.Step | server.js:229-239 | one loop pass adds certainty × weight to the voted class only, appends the description only for an opinion, and records one breakdown entry for it |
| Ensemble.Cast | server.js:219-240 | after the loop the scores are each class's weighted support, the descriptions are those of the models with an opinion in model order, and the breakdown holds each class's backers |
| Ensemble.Resolve | server.js:242-261 | Xỉu wins exactly on a strictly larger Xỉu score; the confidence is the rounded winning share, or 50 on equal scores, zero included |
| Ensemble.Dampen | server.js:263-271 | dampening never raises the confidence; with fewer than two backers a confidence above 60 becomes exactly 60; otherwise it is unchanged |
| Ensemble.Decide | server.js:242-271 | from the totals, the backers and the descriptions: Xỉu exactly on a strictly larger Xỉu total; confidence in 50..100 and at most 60 with fewer than two backers of the winner; the default description is added exactly when both totals are zero |
| Ensemble.Aggregate | server.js:219-271 | Xỉu exactly when its weighted support exceeds Tài's; confidence in 50..100; at most 60 with fewer than two backers of the winner; explanation is the voiced descriptions plus the default only when both supports are zero |
| Ensemble.AggregateByReference | server.js:219-271 | the decision depends only on each class's weighted support, each class's backers and the voiced descriptions |
| Ensemble.ConfidenceRule | server.js:242-271 | the confidence is the winner's rounded share of the weighted supports (50 on equal supports); when fewer than two models back the winner and that share is above 60, it is exactly 60 |
| Ensemble.TieGoesToTai | server.js:246-259 | equal weighted supports, zero included, give Tài with confidence 50 |
| Ensemble.NullVoteIgnored | server.js:229-230 | inserting a model without an opinion anywhere changes no part of the decision |
| Ensemble.UnanimityGivesFullConfidence | server.js:246-271 | when at least two models back one class with positive scores and every other model has no opinion, that class wins with confidence 100 |
| Ensemble.UnitWeightsAddCertainty | server.js:200-204 | with the source's weights of 1, a model's opinion adds exactly its certainty to its class |
| Ensemble.SilentDecision | server.js:257-260 | with no opinion at all the decision is Tài, 50, with the default description alone |
| SumRanker.Candidates | server.js:294 | seven strictly ascending candidates, which are exactly the sums in 4..17 of the predicted class |
| SumRanker.RecentSums | server.js:293 | the window holds the first min(70, n) rounds' scores, 0 where a score is missing, which are the rounds' `tong` values |
| SumRanker.CountOf | server.js:298 | the filter count is the sum's multiplicity in the window |
| SumRanker.IndexOf | server.js:301 | −1 exactly when the sum is absent; otherwise the index of its first occurrence |
| SumRanker.Insert | server.js:311-312 | one insertion step adds exactly the new entry |
| SumRanker.SortByScore | server.js:311-312 | the sort is a permutation of the scored candidates |
| SumRanker.SortRanked | server.js:311-312 | sorting entries listed by ascending sum orders them by descending score, ties by ascending sum |
| SumRanker.PredictSums | server.js:291-317 | three pairwise distinct sums, each in 4..17 and of the predicted class |
| SumRanker.PredictSumsRanked | server.js:291-317 | the three sums are distinct candidates, best first with ties by the smaller sum, and no candidate left out outranks any of them |
| SumRanker.PatternScoreUniform | server.js:305 | every candidate gets the pattern bonus 1.5, so the bonus never separates candidates |
| SumRanker.TimeScoreByLastSeen | server.js:301-303 | the time score is min(k/20, 1) for the index k of the latest occurrence, or for the window length when the sum is absent; 1 from 20 on |
| SumRanker.UnseenFreqScore | server.js:298-299 | a sum absent from the window scores its probability times 100 |
| SumRanker.FreqScoreByCount | server.js:298-299 | the frequency score is the distance between the sum's count over 70 and its roll count over 216, times 100 |
| SumRanker.Score | server.js:307 | the total is the pattern bonus plus 1.5 × the frequency score plus a time term worth between 0 and 2 |
| SumRanker.ScoreByFormula | server.js:296-308 | a candidate's total is 1.5 × 100 × the distance between its count over 70 and its rolls over 216, plus 2 × min(k/20, 1) for the index k of its latest occurrence (the window length when absent), plus the bonus 1.5 |
| SumRanker.ScoreAtLeastBonus | server.js:298-308 | every candidate's total score is at least 1.5 |
| Engine.ModelVotes | server.js:214-227 | three votes, each well formed |
| Engine.PredictAdvanced | server.js:206-289 | the sentinel (no sums, confidence 0) exactly below 15 rounds; otherwise a class, confidence in 50..100 and three sums; Xỉu exactly when its weighted support exceeds Tài's |
| Engine.SumsAgreeWithVerdict | server.js:291-317 | the three shortlisted sums are distinct and all of the predicted class, listed best first (ties by the smaller sum), and no sum of that class left out ranks ahead of any of them |
| Engine.ConfidenceOfCall | server.js:242-271 | the engine's confidence is the winner's rounded share of the three analyzers' weighted votes (50 on equal totals), and exactly 60 when that share is above 60 and fewer than two analyzers back the call |
| Engine.ExplanationOfCall | server.js:219-260 | the explanation of a call is the Markov, balance and heuristic descriptions, in that order and each only when that analyzer has an opinion, followed by the default description exactly when both weighted totals are zero |
| Markov.FollowsMono | server.js:112-118 | visiting more positions of the history never lowers the number of times a key is followed by a class |
| Ensemble.OpinionGivesSupport | server.js:229-244 | one analyzer with an opinion and a positive weighted certainty makes the two totals together positive |
| Ensemble.UnitWeightOpinionGivesSupport | server.js:200-244 | under the source's weights of 1 any analyzer with an opinion makes the total positive |
| Engine.MarkovOrHeuristicSpeaks | server.js:79-194 | from five entries on, the streak/transition analyzer or the pattern analyzer has an opinion |
| Engine.DefaultNeverUsed | server.js:244-261 | under the source's weights, from 15 rounds on the weighted total is positive and the explanation is exactly the descriptions of the analyzers with an opinion, so the default description is never added |
| Engine.ShortHistoryNeedsTwoAnalyzers | server.js:263-271 | below 30 rounds the balance analyzer abstains, so a confidence above 60 needs the streak and pattern analyzers both to back the verdict |

## Left out

- The HTTP route, the response's JSON shape, process startup and logging
  (`console.log`) are plumbing around the engine, not engine logic.
- Fetching the upstream history, with its retries and backoff, is I/O. The
  model takes the history as a parameter.
- `gameNum` is copied as is; the model types it as a string.
- The Vietnamese description texts and the `join(' ')` of the explanation
  are left out. The model keeps the list of description tags.
- `predictionBreakdown`'s certainty and score fields are modelled but never
  read by the model's properties; only the predicted class in each entry is.
- IEEE double rounding is not modelled:
  - `Math.round` is modelled on the exact quotient. The floating-point product
    `a / b * 100` can land just beside an exact half, where the source could
    round the other way.
  - The sum scores are exact reals. A floating-point tie or near-tie could
    order two sums differently.
- Ensemble.Weights: weights are natural numbers. The source's weights are
  floats fixed at 1.0, which this covers. Fractional weights are not modelled.
- History.HistoryStatus: three dice sum to 3..18, but the code accepts any
  score and makes every score outside 11..18 Xỉu, including 3, 0 and
  negative values. The model keeps that behaviour.
- Engine.PredictAdvanced: the source's log message asks for more than 15
  rounds, but the check is `history.length < 15`. The model follows the
  check: 15 rounds are enough.

=== FILE: balance.dfy ===
/** Model 2 of the engine, `analyzeMultiTimeframeBalance` (server.js:138-173):
    a bet on mean reversion when the last 15 or the last 30 rounds lean to one
    class. */
module Balance {
  import opened Basics
  import opened Votes

  /** The `forEach(h => counts[h.taixiu]++)` loop over a window, front to back. */
  function CountClasses(w: seq<Cls>): (c: Counts)
    ensures c.t == multiset(w)[T] && c.x == multiset(w)[X]
    ensures c.Total() == |w|
  {
    if w == [] then Counts(0, 0)
    else
      var init := w[..|w| - 1];
      assert w == init + [w[|w| - 1]];
      Bump(CountClasses(init), w[|w| - 1])
  }

  /** How far a window leans: the difference between its class counts. */
  function Imbalance(w: seq<Cls>): nat {
    Abs(multiset(w)[T] as int - multiset(w)[X] as int)
  }

  /** The class a window holds strictly fewer of. */
  predicate IsMinority(w: seq<Cls>, c: Cls) {
    multiset(w)[c] < multiset(w)[Opposite(c)]
  }

  /** `analyzeMultiTimeframeBalance`. */
  function AnalyzeBalance(st: seq<Cls>): (v: Vote)
    ensures WellFormed(v)
    ensures |st| < 30 ==> v == Vote(None, 0, BalanceTooShort)
    ensures v.prediction.Some? ==> |st| >= 30 && v.certainty <= 80
  {
    if |st| < 30 then Vote(None, 0, BalanceTooShort)
    else
      var short := CountClasses(st[..15]);
      var long := CountClasses(st[..30]);
      var shortDiff := Abs(short.t - short.x);
      var longDiff := Abs(long.t - long.x);
      if shortDiff >= 4 then
        assert shortDiff >= 5 by { OddGap(short); }
        Vote(Some(if short.t > short.x then X else T), Min(shortDiff * 10, 80), BalanceShortTerm)
      else if longDiff >= 7 then
        assert longDiff >= 8 by { EvenGap(long); }
        Vote(Some(if long.t > long.x then X else T), Min(longDiff * 8, 75), BalanceLongTerm)
      else Vote(None, 0, BalanceSteady)
  }

  /** Over 15 entries the two counts differ by an odd number. */
  lemma OddGap(c: Counts)
    requires c.Total() == 15
    ensures Abs(c.t - c.x) % 2 == 1
  {
  }

  /** Over 30 entries the two counts differ by an even number. */
  lemma EvenGap(c: Counts)
    requires c.Total() == 30
    ensures Abs(c.t - c.x) % 2 == 0
  {
  }

  /** A lean of 4 or more over the last 15 entries wins: the vote goes to the
      minority class there, with certainty min(10·lean, 80), which is 50, 70
      or 80 because the lean over 15 entries is odd. */
  lemma ShortWindowRebalances(st: seq<Cls>)
    requires |st| >= 30
    requires Imbalance(st[..15]) >= 4
    ensures AnalyzeBalance(st).prediction.Some?
    ensures IsMinority(st[..15], AnalyzeBalance(st).prediction.value)
    ensures AnalyzeBalance(st).certainty == Min(10 * Imbalance(st[..15]), 80)
    ensures AnalyzeBalance(st).certainty in {50, 70, 80}
    ensures AnalyzeBalance(st).reason == BalanceShortTerm
  {
    var short := CountClasses(st[..15]);
    OddGap(short);
  }

  /** Otherwise a lean of 7 or more over the last 30 entries gives the
      minority class there, with certainty min(8·lean, 75), which is 64 or 75
      because the lean over 30 entries is even. */
  lemma LongWindowRebalances(st: seq<Cls>)
    requires |st| >= 30
    requires Imbalance(st[..15]) < 4 && Imbalance(st[..30]) >= 7
    ensures AnalyzeBalance(st).prediction.Some?
    ensures IsMinority(st[..30], AnalyzeBalance(st).prediction.value)
    ensures AnalyzeBalance(st).certainty == Min(8 * Imbalance(st[..30]), 75)
    ensures AnalyzeBalance(st).certainty in {64, 75}
    ensures AnalyzeBalance(st).reason == BalanceLongTerm
  {
    var long := CountClasses(st[..30]);
    EvenGap(long);
  }

  /** With both leans below their thresholds there is no vote. */
  lemma SteadyHistoryAbstains(st: seq<Cls>)
    requires |st| >= 30
    requires Imbalance(st[..15]) < 4 && Imbalance(st[..30]) < 7
    ensures AnalyzeBalance(st) == Vote(None, 0, BalanceSteady)
  {
  }

  /** Ten Tài and five Xỉu in the last 15 rounds predict Xỉu with certainty 50. */
  lemma TenToFiveExample(st: seq<Cls>)
    requires |st| >= 30
    requires multiset(st[..15])[T] == 10
    ensures AnalyzeBalance(st) == Vote(Some(X), 50, BalanceShortTerm)
  {
    var short := CountClasses(st[..15]);
    assert short.x == 5;
  }
}

=== FILE: basics.dfy ===
/** Shared vocabulary of the prediction engine: the two outcome classes, the
    per-class tally record, optional values, and the integer form of
    JavaScript's `Math.round` on a percentage. */
module Basics {

  /** An optional value; a JavaScript `null` prediction is `None`. */
  datatype Option<T> = None | Some(value: T)

  /** The two outcome classes: Tài (`T`) and Xỉu (`X`). */
  datatype Cls = T | X

  function Opposite(c: Cls): (r: Cls)
    ensures r != c
  {
    if c == T then X else T
  }

  /** A pair of per-class tallies, the source's `{ T: 0, X: 0 }` objects. */
  datatype Counts = Counts(t: nat, x: nat) {
    function Total(): nat {
      t + x
    }
  }

  /** The tally after one more observation of class `c` (`counts[c]++`). */
  function Bump(counts: Counts, c: Cls): Counts {
    if c == T then Counts(counts.t + 1, counts.x) else Counts(counts.t, counts.x + 1)
  }

  function Min(a: int, b: int): int {
    if a <= b then a else b
  }

  function Max(a: int, b: int): int {
    if a >= b then a else b
  }

  function Abs(a: int): nat {
    if a >= 0 then a else -a
  }

  /** `Math.round(a / b * 100)` for a non-negative numerator and a positive
      denominator, computed exactly in integers. */
  function RoundPercent(a: nat, b: nat): (r: int)
    requires 0 < b
    ensures a <= b ==> 0 <= r <= 100
    ensures b <= 2 * a ==> 50 <= r
  {
    var r := (200 * a + b) / (2 * b);
    RoundPercentBounds(a, b, r);
    r
  }

  /** RoundPercent is `Math.round` of the exact percentage: the integer
      nearest to 100·a/b, a half rounding up. */
  lemma RoundPercentIsNearest(a: nat, b: nat)
    requires 0 < b
    ensures var r := RoundPercent(a, b);
            (r as real) - 0.5 <= 100.0 * (a as real) / (b as real) < (r as real) + 0.5
  {
    RoundPercentBounds(a, b, RoundPercent(a, b));
  }

  /** The division `(200a + b) / (2b)` lies within one half of 100·a/b. */
  lemma RoundPercentBounds(a: nat, b: nat, r: int)
    requires 0 < b
    requires r == (200 * a + b) / (2 * b)
    ensures (r as real) - 0.5 <= 100.0 * (a as real) / (b as real) < (r as real) + 0.5
    ensures a <= b ==> 0 <= r <= 100
    ensures b <= 2 * a ==> 50 <= r
  {
    var rm := (200 * a + b) % (2 * b);
    assert 200 * a + b == 2 * b * r + rm && 0 <= rm < 2 * b;
    ScaledGap(100 * a, b, r, rm - b);
    assert ((100 * a) as real) == 100.0 * (a as real);
    if a <= b && r > 100 {
      MulMono(b, 101, r);
      assert false;
    }
    if b <= 2 * a && r < 50 {
      MulMono(b, r + 1, 50);
      assert false;
    }
    if r < 0 {
      MulMono(b, r + 1, 0);
      assert false;
    }
  }

  /** Half of a total rounds to exactly 50 percent. */
  lemma RoundPercentOfHalf(a: nat)
    requires 0 < a
    ensures RoundPercent(a, 2 * a) == 50
  {
    DivisionOf(50, 4 * a, 2 * a);
  }

  /** The whole of a total rounds to exactly 100 percent. */
  lemma RoundPercentOfWhole(a: nat)
    requires 0 < a
    ensures RoundPercent(a, a) == 100
  {
    DivisionOf(100, 2 * a, a);
  }

  lemma DivisionOf(q: int, d: int, r: int)
    requires 0 <= r < d
    ensures (q * d + r) / d == q
  {
    var y := (q * d + r) / d;
    var m := (q * d + r) % d;
    assert q * d + r == d * y + m && 0 <= m < d;
    assert d * (q - y) == m - r;
    if q - y >= 1 {
      MulMono(d, 1, q - y);
    }
    if q - y <= -1 {
      MulMono(d, q - y, -1);
    }
  }

  lemma MulMono(b: int, lo: int, hi: int)
    requires 0 < b && lo <= hi
    ensures b * lo <= b * hi
  {
  }

  /** If 2n - 2b·r equals g with -b <= g < b, then r - 1/2 <= n/b < r + 1/2. */
  lemma ScaledGap(n: int, b: int, r: int, g: int)
    requires 0 < b
    requires 2 * n == 2 * b * r + g
    requires -b <= g < b
    ensures (r as real) - 0.5 <= (n as real) / (b as real) < (r as real) + 0.5
  {
    assert (2 * n) as real == 2.0 * (b as real) * (r as real) + g as real;
    RealGap(n as real, b as real, r as real, g as real);
  }

  lemma RealGap(n: real, b: real, r: real, g: real)
    requires 0.0 < b
    requires 2.0 * n == 2.0 * b * r + g
    requires -b <= g < b
    ensures r - 0.5 <= n / b < r + 0.5
  {
    var e := g / (2.0 * b);
    assert n / b == r + e;
    assert g == 2.0 * b * e;
  }
}

=== FILE: engine.dfy ===
/** `predictAdvanced` (server.js:206-289): the three analyzers vote on the
    class history, the weighted vote decides the class and confidence, and
    the sum ranker shortlists three sums of that class. */
module Engine {
  import opened Basics
  import opened Votes
  import History
  import Markov
  import Balance
  import Heuristic
  import Ensemble
  import SumRanker

  /** `du_doan`: the "not enough data" sentinel, or a class. */
  datatype Verdict = NotEnoughData | Call(cls: Cls)

  /** The result object: `du_doan`, `doan_vi`, `confidence`, `giai_thich`. */
  datatype Prediction = Prediction(verdict: Verdict, sums: seq<int>, confidence: nat, explanation: seq<Reason>)

  /** Fewer rounds than this give the sentinel. */
  const MinHistory: nat := 15

  /** `allModels`: the three analyzers' votes on the class history, in order. */
  function ModelVotes(cs: seq<Cls>): (ms: seq<(Ensemble.Model, Vote)>)
    ensures |ms| == 3
    ensures forall i :: 0 <= i < 3 ==> WellFormed(ms[i].1)
  {
    [ (Ensemble.MarkovModel, Markov.AnalyzeMarkov(cs)),
      (Ensemble.BalanceModel, Balance.AnalyzeBalance(cs)),
      (Ensemble.HeuristicModel, Heuristic.AnalyzeHeuristic(cs)) ]
  }

  /** `predictAdvanced`, with the weights passed in (`DynamicWeights` in the
      source). */
  function PredictAdvanced(w: Ensemble.Weights, h: seq<History.Round>): (p: Prediction)
    ensures p.verdict == NotEnoughData <==> |h| < MinHistory
    ensures |h| < MinHistory ==> p == Prediction(NotEnoughData, [], 0, [AwaitMoreRounds])
    ensures p.verdict.Call? ==> 50 <= p.confidence <= 100 && |p.sums| == 3
    ensures p.verdict.Call? ==>
              var ms := ModelVotes(History.Classes(h));
              (p.verdict.cls == X <==> Ensemble.Support(w, ms, X) > Ensemble.Support(w, ms, T))
  {
    if |h| < MinHistory then Prediction(NotEnoughData, [], 0, [AwaitMoreRounds])
    else
      var d := Ensemble.Aggregate(w, ModelVotes(History.Classes(h)));
      Prediction(Call(d.cls), SumRanker.PredictSums(h, d.cls), d.confidence, d.explanation)
  }

  /** The shortlisted sums all belong to the predicted class, are distinct,
      are listed best first, and are the best-scoring sums of that class: no
      sum of the class left out ranks ahead of any of them. */
  lemma SumsAgreeWithVerdict(w: Ensemble.Weights, h: seq<History.Round>)
    requires |h| >= MinHistory
    ensures var p := PredictAdvanced(w, h);
            var recent := SumRanker.RecentSums(h);
            && p.verdict.Call?
            && (forall i :: 0 <= i < 3 ==> 4 <= p.sums[i] <= 17 && History.ClassOf(p.sums[i]) == p.verdict.cls)
            && p.sums[0] != p.sums[1] && p.sums[1] != p.sums[2] && p.sums[0] != p.sums[2]
            && (forall i, j :: 0 <= i < j < 3 ==>
                  SumRanker.Before(SumRanker.Scored(p.sums[i], SumRanker.Score(recent, p.sums[i], p.verdict.cls)),
                                   SumRanker.Scored(p.sums[j], SumRanker.Score(recent, p.sums[j], p.verdict.cls))))
            && (forall s, i :: 4 <= s <= 17 && History.ClassOf(s) == p.verdict.cls && s !in p.sums && 0 <= i < 3 ==>
                  SumRanker.Before(SumRanker.Scored(p.sums[i], SumRanker.Score(recent, p.sums[i], p.verdict.cls)),
                                   SumRanker.Scored(s, SumRanker.Score(recent, s, p.verdict.cls))))
  {
    var p := PredictAdvanced(w, h);
    SumRanker.PredictSumsRanked(h, p.verdict.cls);
  }

  /** The confidence of a call is the winning class's rounded share of the
      weighted votes (50 on equal totals), replaced by 60 when it exceeds 60
      and fewer than two analyzers back the call. */
  lemma ConfidenceOfCall(w: Ensemble.Weights, h: seq<History.Round>) returns (t: nat, x: nat)
    requires |h| >= MinHistory
    ensures var ms := ModelVotes(History.Classes(h));
            t == Ensemble.Support(w, ms, T) && x == Ensemble.Support(w, ms, X)
    ensures var ms := ModelVotes(History.Classes(h));
            var d := Ensemble.Aggregate(w, ms);
            var share := if t == x then 50 else RoundPercent(Max(t, x), t + x);
            && PredictAdvanced(w, h).verdict == Call(d.cls)
            && (Ensemble.Backers(ms, d.cls) >= 2 || share <= 60 ==> PredictAdvanced(w, h).confidence == share)
            && (Ensemble.Backers(ms, d.cls) < 2 && share > 60 ==> PredictAdvanced(w, h).confidence == 60)
  {
    var ms := ModelVotes(History.Classes(h));
    t, x := Ensemble.Support(w, ms, T), Ensemble.Support(w, ms, X);
    var d := Ensemble.Aggregate(w, ms);
    assert PredictAdvanced(w, h).verdict == Call(d.cls) && PredictAdvanced(w, h).confidence == d.confidence;
    Ensemble.ConfidenceRule(w, ms, t, x);
  }

  /** The explanation of a call lists the descriptions of the analyzers that
      have an opinion, in the order Markov, balance, heuristic, followed by the
      default description exactly when both weighted totals are zero. */
  lemma ExplanationOfCall(w: Ensemble.Weights, h: seq<History.Round>) returns (t: nat, x: nat)
    requires |h| >= MinHistory
    ensures var ms := ModelVotes(History.Classes(h));
            t == Ensemble.Support(w, ms, T) && x == Ensemble.Support(w, ms, X)
    ensures var cs := History.Classes(h);
            PredictAdvanced(w, h).explanation ==
              Said(Markov.AnalyzeMarkov(cs)) + Said(Balance.AnalyzeBalance(cs)) + Said(Heuristic.AnalyzeHeuristic(cs))
              + (if t + x == 0 then [NoSignal] else [])
  {
    var cs := History.Classes(h);
    var ms := ModelVotes(cs);
    t, x := Ensemble.Support(w, ms, T), Ensemble.Support(w, ms, X);
    var d := Ensemble.Aggregate(w, ms);
    assert PredictAdvanced(w, h).explanation == d.explanation;
    assert d.explanation == Ensemble.Voiced(ms) + (if t + x == 0 then [NoSignal] else []);
    Ensemble.VoicedOfThree(ms);
  }

  /** From five entries on, the streak/transition analyzer or the pattern
      analyzer has an opinion. A silent streak/transition analyzer has a
      streak below 4 and no follower of the key (st[1], st[0]). Position 2
      follows that key when st[0] = st[1], so st[0] != st[1]; and positions
      3 and 4 follow it unless st[1] = st[2] = st[3]. That is the
      "A-B-C-C" or "A-B-B-B" pattern, on which the pattern analyzer votes. */
  lemma MarkovOrHeuristicSpeaks(st: seq<Cls>)
    requires |st| >= 5
    ensures Markov.AnalyzeMarkov(st).prediction.Some? || Heuristic.AnalyzeHeuristic(st).prediction.Some?
  {
    if !(st[1] == st[0] && st[2] == st[0] && st[3] == st[0]) {
      Markov.TransitionFallback(st);
      var k := (st[1], st[0]);
      if Markov.AnalyzeMarkov(st).prediction.None? {
        if st[0] == st[1] {
          assert Markov.Follows(st, k, st[2], 3) == 1;
          Markov.FollowsMono(st, k, st[2], 3, |st|);
        } else if st[2] != st[1] {
          assert Markov.Follows(st, k, st[3], 4) >= 1;
          Markov.FollowsMono(st, k, st[3], 4, |st|);
        } else if st[3] != st[2] {
          assert Markov.Follows(st, k, st[4], 5) >= 1;
          Markov.FollowsMono(st, k, st[4], 5, |st|);
        }
      }
    }
  }

  /** Under the source's weights of 1 some analyzer always votes, so the
      weighted totals are never both zero: the fallback to Tài with 50 and
      the default description (server.js:257-260) is never taken, and the
      explanation is exactly the voiced descriptions. */
  lemma DefaultNeverUsed(h: seq<History.Round>) returns (t: nat, x: nat)
    requires |h| >= MinHistory
    ensures var ms := ModelVotes(History.Classes(h));
            t == Ensemble.Support(Ensemble.DynamicWeights, ms, T) &&
            x == Ensemble.Support(Ensemble.DynamicWeights, ms, X)
    ensures t + x > 0
    ensures var cs := History.Classes(h);
            PredictAdvanced(Ensemble.DynamicWeights, h).explanation ==
              Said(Markov.AnalyzeMarkov(cs)) + Said(Balance.AnalyzeBalance(cs)) + Said(Heuristic.AnalyzeHeuristic(cs))
  {
    var cs := History.Classes(h);
    var ms := ModelVotes(cs);
    MarkovOrHeuristicSpeaks(cs);
    var i := if ms[0].1.prediction.Some? then 0 else 2;
    Ensemble.UnitWeightOpinionGivesSupport(ms, i);
    t, x := ExplanationOfCall(Ensemble.DynamicWeights, h);
  }

  /** With fewer than 30 rounds the balance analyzer abstains, so a
      confidence above 60 needs the streak/transition and pattern analyzers to
      agree on the verdict. */
  lemma ShortHistoryNeedsTwoAnalyzers(w: Ensemble.Weights, h: seq<History.Round>)
    requires MinHistory <= |h| < 30
    ensures var p := PredictAdvanced(w, h);
            var cs := History.Classes(h);
            p.confidence > 60 ==>
              p.verdict.Call? &&
              Markov.AnalyzeMarkov(cs).prediction == Some(p.verdict.cls) &&
              Heuristic.AnalyzeHeuristic(cs).prediction == Some(p.verdict.cls)
  {
    var cs := History.Classes(h);
    var ms := ModelVotes(cs);
    var d := Ensemble.Aggregate(w, ms);
    assert ms[1].1.prediction.None?;
    Ensemble.BackersOfThree(ms, d.cls);
  }
}

=== FILE: ensemble.dfy ===
/** The weighted vote of `predictAdvanced` (server.js:200-271): every analyzer
    that has an opinion adds certainty × weight to its class, the larger total
    wins, and the confidence is capped when fewer than two analyzers agree with
    the outcome. */
module Ensemble {
  import opened Basics
  import opened Votes

  datatype Model = MarkovModel | BalanceModel | HeuristicModel

  /** The per-model weights, passed in rather than read from a global. */
  datatype Weights = Weights(markov: nat, balance: nat, heuristic: nat)

  /** `dynamicWeights`: every weight is 1. */
  const DynamicWeights: Weights := Weights(1, 1, 1)

  function WeightOf(w: Weights, m: Model): nat {
    match m
    case MarkovModel => w.markov
    case BalanceModel => w.balance
    case HeuristicModel => w.heuristic
  }

  /** One `predictionBreakdown` entry. */
  datatype Entry = Entry(model: Model, prediction: Cls, certainty: nat, score: nat)

  /** The state of the voting loop: `scores`, `explanation`, `predictionBreakdown`. */
  datatype Ballot = Ballot(scores: Counts, explanation: seq<Reason>, breakdown: seq<Entry>)

  /** The aggregator's outcome before the sums are ranked. */
  datatype Decision = Decision(cls: Cls, confidence: nat, explanation: seq<Reason>)

  // Reference definitions, each by recursion on the first model.

  /** What one model adds to class `c`. */
  function Contribution(w: Weights, mv: (Model, Vote), c: Cls): nat {
    if mv.1.prediction == Some(c) then mv.1.certainty * WeightOf(w, mv.0) else 0
  }

  /** The weighted support for class `c`. */
  function Support(w: Weights, ms: seq<(Model, Vote)>, c: Cls): nat {
    if ms == [] then 0 else Contribution(w, ms[0], c) + Support(w, ms[1..], c)
  }

  /** How many models vote for class `c`. */
  function Backers(ms: seq<(Model, Vote)>, c: Cls): nat {
    if ms == [] then 0 else (if ms[0].1.prediction == Some(c) then 1 else 0) + Backers(ms[1..], c)
  }

  /** The descriptions of the models that have an opinion, in model order. */
  function Voiced(ms: seq<(Model, Vote)>): seq<Reason> {
    if ms == [] then [] else Said(ms[0].1) + Voiced(ms[1..])
  }

  lemma AppendModels(w: Weights, a: seq<(Model, Vote)>, b: seq<(Model, Vote)>)
    ensures Support(w, a + b, T) == Support(w, a, T) + Support(w, b, T)
    ensures Support(w, a + b, X) == Support(w, a, X) + Support(w, b, X)
    ensures Backers(a + b, T) == Backers(a, T) + Backers(b, T)
    ensures Backers(a + b, X) == Backers(a, X) + Backers(b, X)
    ensures Voiced(a + b) == Voiced(a) + Voiced(b)
  {
    AppendSupport(w, a, b, T);
    AppendSupport(w, a, b, X);
    AppendBackers(a, b, T);
    AppendBackers(a, b, X);
    AppendVoiced(a, b);
  }

  lemma {:induction false} AppendSupport(w: Weights, a: seq<(Model, Vote)>, b: seq<(Model, Vote)>, c: Cls)
    ensures Support(w, a + b, c) == Support(w, a, c) + Support(w, b, c)
  {
    if a == [] {
      assert a + b == b;
    } else {
      assert (a + b)[0] == a[0];
      assert (a + b)[1..] == a[1..] + b;
      AppendSupport(w, a[1..], b, c);
    }
  }

  lemma {:induction false} AppendBackers(a: seq<(Model, Vote)>, b: seq<(Model, Vote)>, c: Cls)
    ensures Backers(a + b, c) == Backers(a, c) + Backers(b, c)
  {
    if a == [] {
      assert a + b == b;
    } else {
      assert (a + b)[0] == a[0];
      assert (a + b)[1..] == a[1..] + b;
      AppendBackers(a[1..], b, c);
    }
  }

  lemma {:induction false} AppendVoiced(a: seq<(Model, Vote)>, b: seq<(Model, Vote)>)
    ensures Voiced(a + b) == Voiced(a) + Voiced(b)
  {
    if a == [] {
      assert a + b == b;
    } else {
      assert (a + b)[0] == a[0];
      assert (a + b)[1..] == a[1..] + b;
      AppendVoiced(a[1..], b);
    }
  }

  /** The reference definitions extended by one model at the end. */
  lemma LastModel(w: Weights, init: seq<(Model, Vote)>, last: (Model, Vote))
    ensures Support(w, init + [last], T) == Support(w, init, T) + Contribution(w, last, T)
    ensures Support(w, init + [last], X) == Support(w, init, X) + Contribution(w, last, X)
    ensures Backers(init + [last], T) == Backers(init, T) + (if last.1.prediction == Some(T) then 1 else 0)
    ensures Backers(init + [last], X) == Backers(init, X) + (if last.1.prediction == Some(X) then 1 else 0)
    ensures Voiced(init + [last]) == Voiced(init) + Said(last.1)
  {
    AppendModels(w, init, [last]);
    assert [last][1..] == [];
  }

  // The voting loop as written.

  function AddScore(c: Counts, cls: Cls, s: nat): Counts {
    if cls == T then Counts(c.t + s, c.x) else Counts(c.t, c.x + s)
  }

  /** Number of breakdown entries predicting `c`: the agreement loop. */
  function Agreement(bd: seq<Entry>, c: Cls): (n: nat)
    ensures n <= |bd|
    ensures n == 0 <==> forall i :: 0 <= i < |bd| ==> bd[i].prediction != c
  {
    if bd == [] then 0
    else Agreement(bd[..|bd| - 1], c) + (if bd[|bd| - 1].prediction == c then 1 else 0)
  }

  /** One pass of the voting loop: a `null` prediction is skipped; otherwise
      the score is added, the description appended and the entry recorded. */
  function Step(w: Weights, b: Ballot, mv: (Model, Vote)): (r: Ballot)
    ensures r.scores == Counts(b.scores.t + Contribution(w, mv, T), b.scores.x + Contribution(w, mv, X))
    ensures r.explanation == b.explanation + Said(mv.1)
    ensures Agreement(r.breakdown, T) == Agreement(b.breakdown, T) + (if mv.1.prediction == Some(T) then 1 else 0)
    ensures Agreement(r.breakdown, X) == Agreement(b.breakdown, X) + (if mv.1.prediction == Some(X) then 1 else 0)
  {
    match mv.1.prediction
    case None => b
    case Some(c) =>
      var score := mv.1.certainty * WeightOf(w, mv.0);
      var bd := b.breakdown + [Entry(mv.0, c, mv.1.certainty, score)];
      assert bd[..|bd| - 1] == b.breakdown;
      Ballot(AddScore(b.scores, c, score), b.explanation + [mv.1.reason], bd)
  }

  /** The voting loop over the models in order. */
  function Cast(w: Weights, ms: seq<(Model, Vote)>): (b: Ballot)
    ensures b.scores == Counts(Support(w, ms, T), Support(w, ms, X))
    ensures b.explanation == Voiced(ms)
    ensures Agreement(b.breakdown, T) == Backers(ms, T)
    ensures Agreement(b.breakdown, X) == Backers(ms, X)
  {
    if ms == [] then Ballot(Counts(0, 0), [], [])
    else
      var init := ms[..|ms| - 1];
      var last := ms[|ms| - 1];
      LastModel(w, init, last);
      assert ms == init + [last];
      Step(w, Cast(w, init), last)
  }

  /** The winner of the totals and its rounded share: the strictly larger
      side wins, and equal totals (zero included) give Tài with 50. */
  function Resolve(scores: Counts): (r: (Cls, nat))
    ensures r.0 == X <==> scores.x > scores.t
    ensures 50 <= r.1 <= 100
    ensures scores.t != scores.x ==> r.1 == RoundPercent(Max(scores.t, scores.x), scores.t + scores.x)
    ensures scores.t == scores.x ==> r.1 == 50
  {
    var total := scores.Total();
    if total > 0 then
      if scores.t > scores.x then (T, RoundPercent(scores.t, total))
      else if scores.x > scores.t then (X, RoundPercent(scores.x, total))
      else (T, 50)
    else (T, 50)
  }

  /** Agreement dampening: fewer than two backers cap the confidence at 60. */
  function Dampen(confidence: nat, agreement: nat): (r: nat)
    ensures r <= confidence
    ensures agreement < 2 ==> r <= 60
    ensures agreement < 2 && confidence > 60 ==> r == 60
    ensures agreement >= 2 || confidence <= 60 ==> r == confidence
  {
    if agreement < 2 then Min(confidence, 60) else confidence
  }

  /** The decision from the totals, the number of backers of each class and
      the descriptions gathered; the default description is added only when
      both totals are zero. */
  function Decide(scores: Counts, backersT: nat, backersX: nat, voiced: seq<Reason>): (d: Decision)
    ensures d.cls == X <==> scores.x > scores.t
    ensures 50 <= d.confidence <= 100
    ensures (if d.cls == T then backersT else backersX) < 2 ==> d.confidence <= 60
    ensures d.explanation == voiced + (if scores.t + scores.x == 0 then [NoSignal] else [])
  {
    var r := Resolve(scores);
    var agreement := if r.0 == T then backersT else backersX;
    Decision(r.0, Dampen(r.1, agreement), if scores.Total() > 0 then voiced else voiced + [NoSignal])
  }

  /** The resolution and agreement dampening of `predictAdvanced`. */
  function Aggregate(w: Weights, ms: seq<(Model, Vote)>): (d: Decision)
    ensures d.cls == X <==> Support(w, ms, X) > Support(w, ms, T)
    ensures 50 <= d.confidence <= 100
    ensures Backers(ms, d.cls) < 2 ==> d.confidence <= 60
    ensures d.explanation == Voiced(ms) + (if Support(w, ms, T) + Support(w, ms, X) == 0 then [NoSignal] else [])
  {
    var b := Cast(w, ms);
    Decide(b.scores, Agreement(b.breakdown, T), Agreement(b.breakdown, X), b.explanation)
  }

  /** The decision depends on the models only through the weighted support of
      each class, the number of backers of each class and the descriptions. */
  lemma AggregateByReference(w: Weights, ms: seq<(Model, Vote)>)
    ensures Aggregate(w, ms) ==
            Decide(Counts(Support(w, ms, T), Support(w, ms, X)), Backers(ms, T), Backers(ms, X), Voiced(ms))
  {
  }

  /** The winner's confidence is its share of the total, rounded (50 on an
      exact tie, including the silent case), then capped at 60 unless at least
      two models back the winner. */
  lemma ConfidenceRule(w: Weights, ms: seq<(Model, Vote)>, t: nat, x: nat)
    requires t == Support(w, ms, T) && x == Support(w, ms, X)
    ensures var share := if t == x then 50 else RoundPercent(Max(t, x), t + x);
            var d := Aggregate(w, ms);
            && (Backers(ms, d.cls) >= 2 || share <= 60 ==> d.confidence == share)
            && (Backers(ms, d.cls) < 2 && share > 60 ==> d.confidence == 60)
  {
    ConfidenceFromResolve(w, ms);
    ResolveShare(t, x);
  }

  lemma ConfidenceFromResolve(w: Weights, ms: seq<(Model, Vote)>)
    ensures Aggregate(w, ms).confidence ==
            Dampen(Resolve(Counts(Support(w, ms, T), Support(w, ms, X))).1, Backers(ms, Aggregate(w, ms).cls))
  {
    AggregateByReference(w, ms);
  }

  lemma ResolveShare(t: nat, x: nat)
    ensures Resolve(Counts(t, x)).1 == if t == x then 50 else RoundPercent(Max(t, x), t + x)
  {
  }

  /** Equal totals, zero included, give Tài with confidence 50. */
  lemma TieGoesToTai(w: Weights, ms: seq<(Model, Vote)>)
    requires Support(w, ms, T) == Support(w, ms, X)
    ensures Aggregate(w, ms).cls == T
    ensures Aggregate(w, ms).confidence == 50
  {
    AggregateByReference(w, ms);
  }

  /** Removing a model without an opinion changes nothing. */
  lemma NullVoteIgnored(w: Weights, a: seq<(Model, Vote)>, mv: (Model, Vote), b: seq<(Model, Vote)>)
    requires mv.1.prediction.None?
    ensures Aggregate(w, a + [mv] + b) == Aggregate(w, a + b)
  {
    NullVoteAddsNothing(w, a, mv, b);
    AggregateByReference(w, a + [mv] + b);
    AggregateByReference(w, a + b);
  }

  lemma NullVoteAddsNothing(w: Weights, a: seq<(Model, Vote)>, mv: (Model, Vote), b: seq<(Model, Vote)>)
    requires mv.1.prediction.None?
    ensures Support(w, a + [mv] + b, T) == Support(w, a + b, T)
    ensures Support(w, a + [mv] + b, X) == Support(w, a + b, X)
    ensures Backers(a + [mv] + b, T) == Backers(a + b, T)
    ensures Backers(a + [mv] + b, X) == Backers(a + b, X)
    ensures Voiced(a + [mv] + b) == Voiced(a + b)
  {
    LastModel(w, a, mv);
    AppendModels(w, a + [mv], b);
    AppendModels(w, a, b);
  }

  /** A model that either backs `c` with a positive score or has no opinion. */
  predicate BacksOrAbstains(w: Weights, mv: (Model, Vote), c: Cls) {
    mv.1.prediction.None? || (mv.1.prediction == Some(c) && mv.1.certainty * WeightOf(w, mv.0) > 0)
  }

  /** When at least two models back one class with positive scores and no
      model backs the other, that class wins with confidence 100. */
  lemma UnanimityGivesFullConfidence(w: Weights, ms: seq<(Model, Vote)>, c: Cls)
    requires forall i :: 0 <= i < |ms| ==> BacksOrAbstains(w, ms[i], c)
    requires Backers(ms, c) >= 2
    ensures Aggregate(w, ms).cls == c
    ensures Aggregate(w, ms).confidence == 100
  {
    var t := Support(w, ms, T);
    var x := Support(w, ms, X);
    Unanimous(w, ms, c);
    var share := Support(w, ms, c);
    assert Max(t, x) == share && t + x == share;
    RoundPercentOfWhole(share);
    ConfidenceRule(w, ms, t, x);
  }

  lemma {:induction false} Unanimous(w: Weights, ms: seq<(Model, Vote)>, c: Cls)
    requires forall i :: 0 <= i < |ms| ==> BacksOrAbstains(w, ms[i], c)
    ensures Support(w, ms, Opposite(c)) == 0
    ensures Backers(ms, c) > 0 ==> Support(w, ms, c) > 0
  {
    if ms != [] {
      assert BacksOrAbstains(w, ms[0], c);
      Unanimous(w, ms[1..], c);
    }
  }

  /** Under `DynamicWeights` each opinion adds exactly its certainty. */
  lemma UnitWeightsAddCertainty(mv: (Model, Vote), c: Cls)
    ensures Contribution(DynamicWeights, mv, c) == if mv.1.prediction == Some(c) then mv.1.certainty else 0
  {
  }

  /** Models without an opinion add no support and no description. */
  lemma {:induction false} Silent(w: Weights, ms: seq<(Model, Vote)>)
    requires forall i :: 0 <= i < |ms| ==> ms[i].1.prediction.None?
    ensures Support(w, ms, T) == 0 && Support(w, ms, X) == 0
    ensures Voiced(ms) == []
  {
    if ms != [] {
      Silent(w, ms[1..]);
    }
  }

  /** When no model has an opinion the decision is Tài, 50, with the default
      description alone. */
  lemma SilentDecision(w: Weights, ms: seq<(Model, Vote)>)
    requires forall i :: 0 <= i < |ms| ==> ms[i].1.prediction.None?
    ensures Aggregate(w, ms) == Decision(T, 50, [NoSignal])
  {
    Silent(w, ms);
    var none: seq<Reason> := [];
    assert Aggregate(w, ms) == Decide(Counts(0, 0), Backers(ms, T), Backers(ms, X), none) by {
      AggregateByReference(w, ms);
    }
    DecideSilent(Backers(ms, T), Backers(ms, X));
  }

  lemma DecideSilent(backersT: nat, backersX: nat)
    ensures Decide(Counts(0, 0), backersT, backersX, []) == Decision(T, 50, [NoSignal])
  {
    var none: seq<Reason> := [];
    assert Counts(0, 0).Total() == 0;
    assert Decide(Counts(0, 0), backersT, backersX, none).explanation == none + [NoSignal];
    assert none + [NoSignal] == [NoSignal];
  }

  /** The descriptions voiced by three models, in model order. */
  lemma VoicedOfThree(ms: seq<(Model, Vote)>)
    requires |ms| == 3
    ensures Voiced(ms) == Said(ms[0].1) + Said(ms[1].1) + Said(ms[2].1)
  {
    var rest := ms[1..];
    var last := rest[1..];
    assert rest[0] == ms[1] && last[0] == ms[2] && last[1..] == [];
    assert Voiced(last) == Said(ms[2].1) + Voiced(last[1..]);
    assert Voiced(rest) == Said(ms[1].1) + Voiced(last);
  }

  /** One model with an opinion and a positive weighted certainty makes the
      two totals together positive. */
  lemma {:induction false} OpinionGivesSupport(w: Weights, ms: seq<(Model, Vote)>, i: nat)
    requires i < |ms| && ms[i].1.prediction.Some?
    requires ms[i].1.certainty * WeightOf(w, ms[i].0) > 0
    ensures Support(w, ms, T) + Support(w, ms, X) > 0
  {
    assert Support(w, ms, T) == Contribution(w, ms[0], T) + Support(w, ms[1..], T);
    assert Support(w, ms, X) == Contribution(w, ms[0], X) + Support(w, ms[1..], X);
    if i > 0 {
      assert ms[1..][i - 1] == ms[i];
      OpinionGivesSupport(w, ms[1..], i - 1);
    } else {
      var c := ms[0].1.prediction.value;
      assert Contribution(w, ms[0], c) == ms[0].1.certainty * WeightOf(w, ms[0].0);
      if c == T {
        assert Contribution(w, ms[0], T) > 0;
      } else {
        assert Contribution(w, ms[0], X) > 0;
      }
    }
  }

  /** Under `DynamicWeights` any well-formed opinion makes the totals positive. */
  lemma UnitWeightOpinionGivesSupport(ms: seq<(Model, Vote)>, i: nat)
    requires i < |ms| && ms[i].1.prediction.Some? && WellFormed(ms[i].1)
    ensures Support(DynamicWeights, ms, T) + Support(DynamicWeights, ms, X) > 0
  {
    assert WeightOf(DynamicWeights, ms[i].0) == 1;
    OpinionGivesSupport(DynamicWeights, ms, i);
  }

  /** The backers among three models, one by one. */
  lemma BackersOfThree(ms: seq<(Model, Vote)>, c: Cls)
    requires |ms| == 3
    ensures Backers(ms, c) ==
            (if ms[0].1.prediction == Some(c) then 1 else 0) +
            (if ms[1].1.prediction == Some(c) then 1 else 0) +
            (if ms[2].1.prediction == Some(c) then 1 else 0)
  {
    var rest := ms[1..];
    var last := rest[1..];
    assert rest[0] == ms[1] && last[0] == ms[2] && last[1..] == [];
    assert Backers(last, c) == (if ms[2].1.prediction == Some(c) then 1 else 0) + Backers(last[1..], c);
    assert Backers(rest, c) == (if ms[1].1.prediction == Some(c) then 1 else 0) + Backers(last, c);
  }
}

=== FILE: heuristic.dfy ===
/** Model 3 of the engine, `analyzeHeuristicPatterns` (server.js:176-194):
    two four-entry templates over the most recent classes. */
module Heuristic {
  import opened Basics
  import opened Votes

  /** `analyzeHeuristicPatterns`, with r0..r3 the four most recent classes:
      "A-B-B-B" (r0 != r1 == r2 == r3) predicts r0 with certainty 75; failing
      that, "A-B-C-C" (r0 != r1 != r2 == r3) predicts r1 with certainty 70. */
  function AnalyzeHeuristic(st: seq<Cls>): (v: Vote)
    ensures WellFormed(v)
    ensures |st| < 5 ==> v == Vote(None, 0, HeuristicTooShort)
    ensures |st| >= 5 ==> (v.prediction.Some? <==> st[0] != st[1] && st[2] == st[3])
    ensures v.prediction.Some? ==> v.prediction.value == Opposite(st[3])
    ensures v.prediction.Some? ==> (v.certainty == 75 <==> st[1] == st[2])
    ensures v.prediction.Some? ==> v.certainty in {70, 75}
  {
    if |st| < 5 then Vote(None, 0, HeuristicTooShort)
    else
      var recent := st[..5];
      if recent[0] != recent[1] && recent[1] == recent[2] && recent[2] == recent[3] then
        Vote(Some(recent[0]), 75, HeuristicThreeOne)
      else if recent[0] != recent[1] && recent[1] != recent[2] && recent[2] == recent[3] then
        Vote(Some(recent[1]), 70, HeuristicOneOneTwo)
      else Vote(None, 0, HeuristicNone)
  }

  /** With only two classes the two templates together say: the newest entry
      broke the previous one and the two before agree. The first match wins,
      so "A-B-B-B" is never reported as "A-B-C-C". */
  lemma TemplatesPartitionMatches(st: seq<Cls>)
    requires |st| >= 5
    ensures AnalyzeHeuristic(st).reason == HeuristicThreeOne <==> st[0] != st[1] && st[1] == st[2] == st[3]
    ensures AnalyzeHeuristic(st).reason == HeuristicOneOneTwo <==> st[0] != st[1] && st[1] != st[2] && st[2] == st[3]
  {
  }

  /** Xỉu, Tài, Tài, Tài, ... is template "A-B-B-B" and predicts Xỉu with 75. */
  lemma ThreeOneExample(st: seq<Cls>)
    requires |st| >= 5 && st[0] == X && st[1] == T && st[2] == T && st[3] == T
    ensures AnalyzeHeuristic(st) == Vote(Some(X), 75, HeuristicThreeOne)
  {
  }
}

=== FILE: history.dfy ===
/** The raw round records and the status deriver (`getHistoryStatus`,
    server.js:64-72). A history is newest first: index 0 is the latest round. */
module History {
  import opened Basics
  import SumTable

  /** One upstream record. A missing, null or otherwise falsy score is `None`. */
  datatype Round = Round(gameNum: string, score: Option<int>)

  /** Even (`C`, chẵn) or odd (`L`, lẻ). */
  datatype Parity = C | L

  /** The derived status of one round. */
  datatype Status = Status(phien: string, tong: int, taixiu: Cls, chanle: Parity)

  /** `h.score || 0`. */
  function ScoreOf(r: Round): int {
    match r.score
    case None => 0
    case Some(v) => v
  }

  /** Tài for 11..18; every other score, including the default 0, is Xỉu. */
  function ClassOf(score: int): Cls {
    if 11 <= score && score <= 18 then T else X
  }

  /** `score % 2 === 0`. JavaScript's remainder truncates toward zero and
      Dafny's is Euclidean, but the two are zero for the same scores. */
  function ParityOf(score: int): Parity {
    if score % 2 == 0 then C else L
  }

  function StatusOf(r: Round): Status {
    var score := ScoreOf(r);
    Status(r.gameNum, score, ClassOf(score), ParityOf(score))
  }

  /** `getHistoryStatus`: one status per round, in the same order. */
  function HistoryStatus(h: seq<Round>): (st: seq<Status>)
    ensures |st| == |h|
    ensures forall i :: 0 <= i < |h| ==> st[i].phien == h[i].gameNum
    ensures forall i :: 0 <= i < |h| ==>
              (st[i].taixiu == T <==> h[i].score.Some? && 11 <= h[i].score.value <= 18)
    ensures forall i :: 0 <= i < |h| && h[i].score.None? ==> st[i].tong == 0 && st[i].taixiu == X
    ensures forall i :: 0 <= i < |h| && h[i].score.Some? ==> st[i].tong == h[i].score.value
    ensures forall i :: 0 <= i < |h| ==> (st[i].chanle == C <==> st[i].tong % 2 == 0)
  {
    seq(|h|, i requires 0 <= i < |h| => StatusOf(h[i]))
  }

  /** The class sequence the analyzers read (`s.taixiu`). */
  function Classes(h: seq<Round>): (cs: seq<Cls>)
    ensures |cs| == |h|
    ensures forall i :: 0 <= i < |h| ==> (cs[i] == T <==> h[i].score.Some? && 11 <= h[i].score.value <= 18)
  {
    var st := HistoryStatus(h);
    seq(|h|, i requires 0 <= i < |h| => st[i].taixiu)
  }

  /** For any roll of three dice, the status is Tài exactly when the sum is at
      least 11: no roll exceeds 18, so the upper bound never excludes one. */
  lemma DiceRollClass(d1: int, d2: int, d3: int)
    requires 1 <= d1 <= 6 && 1 <= d2 <= 6 && 1 <= d3 <= 6
    ensures ClassOf(d1 + d2 + d3) == T <==> d1 + d2 + d3 >= 11
  {
  }

  /** Outcomes of class `c` among the sums lo <= s < hi. */
  function WaysOfClass(c: Cls, lo: int, hi: int): nat
    decreases hi - lo
  {
    if hi <= lo then 0
    else (if ClassOf(lo) == c then SumTable.Ways(lo) else 0) + WaysOfClass(c, lo + 1, hi)
  }

  /** Classification splits the 216 equally likely dice outcomes evenly:
      over any range of sums covering 3..18, 108 are Tài and 108 are Xỉu. */
  lemma ClassesSplitOutcomes(lo: int, hi: int)
    requires lo <= 3 && 19 <= hi
    ensures WaysOfClass(T, lo, hi) == 108
    ensures WaysOfClass(X, lo, hi) == 108
  {
    SumTable.ClassesEquallyLikely(lo, hi);
    TaiOutcomes(lo, hi);
    XiuOutcomes(lo, hi);
  }

  /** The Tài outcomes are exactly those of the sums from 11 up. */
  lemma TaiOutcomes(lo: int, hi: int)
    requires lo <= 11 <= hi
    ensures WaysOfClass(T, lo, hi) == SumTable.WaysBetween(11, hi)
  {
    ClassSplit(T, lo, 11, hi);
    LowSums(T, lo, 11);
    HighSums(T, 11, hi);
  }

  /** The Xỉu outcomes are exactly those of the sums below 11. */
  lemma XiuOutcomes(lo: int, hi: int)
    requires lo <= 11 <= hi
    ensures WaysOfClass(X, lo, hi) == SumTable.WaysBetween(lo, 11)
  {
    ClassSplit(X, lo, 11, hi);
    LowSums(X, lo, 11);
    HighSums(X, 11, hi);
  }

  lemma {:induction false} ClassSplit(c: Cls, lo: int, mid: int, hi: int)
    requires lo <= mid <= hi
    ensures WaysOfClass(c, lo, hi) == WaysOfClass(c, lo, mid) + WaysOfClass(c, mid, hi)
    decreases mid - lo
  {
    if lo < mid {
      ClassSplit(c, lo + 1, mid, hi);
    }
  }

  /** Below 11 every sum is Xỉu. */
  lemma {:induction false} LowSums(c: Cls, lo: int, hi: int)
    requires hi <= 11
    ensures WaysOfClass(c, lo, hi) == if c == X then SumTable.WaysBetween(lo, hi) else 0
    decreases hi - lo
  {
    if lo < hi {
      LowSums(c, lo + 1, hi);
    }
  }

  /** From 11 up every sum that occurs is Tài. */
  lemma {:induction false} HighSums(c: Cls, lo: int, hi: int)
    requires 11 <= lo
    ensures WaysOfClass(c, lo, hi) == if c == T then SumTable.WaysBetween(lo, hi) else 0
    decreases hi - lo
  {
    if lo < hi {
      if 18 < lo {
        SumTable.WaysOutside(lo);
      }
      HighSums(c, lo + 1, hi);
    }
  }
}

=== FILE: markov.dfy ===
/** Model 1 of the engine, `analyzeMarkovChainAndStreak` (server.js:79-135):
    a streak rule on the most recent run of one class, and, when the run is
    shorter than 4, a second-order transition table as fallback. */
module Markov {
  import opened Basics
  import opened Votes

  /** A transition key: the classes at indices i-2 and i-1, in that order. */
  type Key = (Cls, Cls)

  /** Length of the run of `st[0]`'s class at the head of the history, with at
      most the first 15 entries examined. */
  function Streak(st: seq<Cls>): (n: nat)
    requires |st| >= 1
    ensures 1 <= n <= 15 && n <= |st|
    ensures forall i :: 0 <= i < n ==> st[i] == st[0]
    ensures n < |st| && n < 15 ==> st[n] != st[0]
  {
    RunFrom(st, 1)
  }

  /** The streak loop from index `i` on, the first `i` entries having matched. */
  function RunFrom(st: seq<Cls>, i: nat): (n: nat)
    requires 1 <= i <= |st| && i <= 15
    requires forall j :: 0 <= j < i ==> st[j] == st[0]
    ensures i <= n <= 15 && n <= |st|
    ensures forall j :: 0 <= j < n ==> st[j] == st[0]
    ensures n < |st| && n < 15 ==> st[n] != st[0]
    decreases |st| - i
  {
    if i < |st| && i < 15 && st[i] == st[0] then RunFrom(st, i + 1) else i
  }

  /** `transitions[key][next]++`, creating `{ T: 0, X: 0 }` on first use. */
  function Tally(m: map<Key, Counts>, k: Key, next: Cls): map<Key, Counts> {
    var c := if k in m then m[k] else Counts(0, 0);
    m[k := Bump(c, next)]
  }

  /** The transition table after the loop has visited the positions
      2 <= i < n, in increasing order. */
  function Transitions(st: seq<Cls>, n: nat): (m: map<Key, Counts>)
    requires n <= |st|
    ensures forall k :: k in m ==> 0 < m[k].Total() <= n - 2
  {
    if n <= 2 then map[] else Tally(Transitions(st, n - 1), (st[n - 3], st[n - 2]), st[n - 1])
  }

  /** Reference count: positions 2 <= i < n whose two predecessors form `k`
      and whose own class is `next`. */
  function Follows(st: seq<Cls>, k: Key, next: Cls, n: nat): nat
    requires n <= |st|
  {
    if n <= 2 then 0
    else Follows(st, k, next, n - 1) + (if (st[n - 3], st[n - 2]) == k && st[n - 1] == next then 1 else 0)
  }

  /** Visiting more positions never lowers a follower count. */
  lemma {:induction false} FollowsMono(st: seq<Cls>, k: Key, next: Cls, m: nat, n: nat)
    requires m <= n <= |st|
    ensures Follows(st, k, next, m) <= Follows(st, k, next, n)
    decreases n - m
  {
    if m < n {
      FollowsMono(st, k, next, m, n - 1);
    }
  }

  /** The table holds a key exactly when the key occurs at some position, and
      then its two tallies are the per-class counts of what followed it. */
  lemma {:induction false} TransitionsCountFollowers(st: seq<Cls>, n: nat, k: Key)
    requires n <= |st|
    ensures k in Transitions(st, n) <==> Follows(st, k, T, n) + Follows(st, k, X, n) > 0
    ensures k in Transitions(st, n) ==>
              Transitions(st, n)[k] == Counts(Follows(st, k, T, n), Follows(st, k, X, n))
  {
    if n > 2 {
      TransitionsCountFollowers(st, n - 1, k);
    }
  }

  /** `analyzeMarkovChainAndStreak`. The lookup key is the two most recent
      classes in reversed index order, `(st[1], st[0])`, while the table is
      keyed in index order `(st[i-2], st[i-1])`; both are kept as written. */
  function AnalyzeMarkov(st: seq<Cls>): (v: Vote)
    ensures WellFormed(v)
    ensures |st| < 5 ==> v == Vote(None, 0, MarkovTooShort)
    ensures v.prediction.Some? ==> |st| >= 5
  {
    if |st| < 5 then Vote(None, 0, MarkovTooShort)
    else
      var lastTwo := (st[1], st[0]);
      var n := Streak(st);
      if n >= 4 then
        if n < 7 then Vote(Some(st[0]), 50 + n * 5, MarkovContinue(n))
        else Vote(Some(Opposite(st[0])), 50 + (n - 7) * 2, MarkovReverse(n))
      else
        var table := Transitions(st, |st|);
        if lastTwo in table && table[lastTwo].Total() > 0 then
          var c := table[lastTwo];
          var predicted := if c.t > c.x then T else X;
          Vote(Some(predicted), RoundPercent(Max(c.t, c.x), c.Total()), MarkovTransition(lastTwo, predicted))
        else Vote(None, 0, MarkovNoPattern)
  }

  /** A run of 4 to 6 at the head predicts that the run continues, with
      certainty 50 + 5·n, so 70, 75 or 80. */
  lemma ShortStreakContinues(st: seq<Cls>, n: nat)
    requires |st| >= 5 && 4 <= n <= 6 && n <= |st|
    requires forall i :: 0 <= i < n ==> st[i] == st[0]
    requires n < |st| ==> st[n] != st[0]
    ensures AnalyzeMarkov(st) == Vote(Some(st[0]), 50 + 5 * n, MarkovContinue(n))
    ensures 70 <= AnalyzeMarkov(st).certainty <= 80
  {
    var m := Streak(st);
    assert m == n;
  }

  /** Seven or more equal classes at the head predict a reversal, with
      certainty 50 + 2·(n - 7) for the capped run n, which is between 50 and 66. */
  lemma LongStreakReverses(st: seq<Cls>)
    requires |st| >= 7
    requires forall i :: 0 <= i < 7 ==> st[i] == st[0]
    ensures AnalyzeMarkov(st).prediction == Some(Opposite(st[0]))
    ensures AnalyzeMarkov(st).certainty == 50 + 2 * (Streak(st) - 7)
    ensures AnalyzeMarkov(st).reason == MarkovReverse(Streak(st))
    ensures 50 <= AnalyzeMarkov(st).certainty <= 66
  {
    var m := Streak(st);
    assert m >= 7;
  }

  /** When the four most recent classes are not all equal, the vote comes from
      the transition counts behind the key (st[1], st[0]): none if the key never
      occurs; otherwise T only on a strict majority of T, and certainty
      round(100·max/total). */
  lemma TransitionFallback(st: seq<Cls>)
    requires |st| >= 5
    requires !(st[1] == st[0] && st[2] == st[0] && st[3] == st[0])
    ensures var t := Follows(st, (st[1], st[0]), T, |st|);
            var x := Follows(st, (st[1], st[0]), X, |st|);
            && (AnalyzeMarkov(st).prediction.None? <==> t + x == 0)
            && (t + x == 0 ==> AnalyzeMarkov(st).reason == MarkovNoPattern)
            && (t + x > 0 ==>
                  && AnalyzeMarkov(st).prediction == Some(if t > x then T else X)
                  && AnalyzeMarkov(st).certainty == RoundPercent(Max(t, x), t + x)
                  && AnalyzeMarkov(st).reason == MarkovTransition((st[1], st[0]), if t > x then T else X))
  {
    var n := Streak(st);
    assert n < 4;
    TransitionsCountFollowers(st, |st|, (st[1], st[0]));
  }

  /** Equal transition counts predict X, with certainty 50. */
  lemma TransitionTieFavorsX(st: seq<Cls>)
    requires |st| >= 5
    requires !(st[1] == st[0] && st[2] == st[0] && st[3] == st[0])
    requires Follows(st, (st[1], st[0]), T, |st|) == Follows(st, (st[1], st[0]), X, |st|) > 0
    ensures AnalyzeMarkov(st).prediction == Some(X)
    ensures AnalyzeMarkov(st).certainty == 50
  {
    TransitionFallback(st);
    RoundPercentOfHalf(Follows(st, (st[1], st[0]), T, |st|));
  }
}

=== FILE: sum_ranker.dfy ===
/** `predictSums` (server.js:291-317): the seven sums of the predicted class
    are scored against the last 70 rounds and the three best are returned. */
module SumRanker {
  import opened Basics
  import SumTable
  import History

  /** One `[sum, score]` entry of `Object.entries(sumScores)`. */
  datatype Scored = Scored(sum: int, score: real)

  /** `sumsToPredict`: 11..17 for Tài and 4..10 for Xỉu, ascending. */
  function Candidates(c: Cls): (cs: seq<int>)
    ensures |cs| == 7
    ensures forall i, j :: 0 <= i < j < |cs| ==> cs[i] < cs[j]
    ensures forall s :: s in cs <==> 4 <= s <= 17 && History.ClassOf(s) == c
  {
    var first := if c == T then 11 else 4;
    var cs := seq(7, i requires 0 <= i < 7 => first + i);
    assert forall s :: 4 <= s <= 17 && History.ClassOf(s) == c ==> s in cs by {
      forall s | 4 <= s <= 17 && History.ClassOf(s) == c
        ensures s in cs
      {
        assert cs[s - first] == s;
      }
    }
    cs
  }

  /** `history.slice(0, 70).map(h => h.score || 0)`: the scores of the 70
      latest rounds, a missing score counting as 0. */
  function RecentSums(h: seq<History.Round>): (r: seq<int>)
    ensures |r| == Min(70, |h|)
    ensures forall i :: 0 <= i < |r| && h[i].score.Some? ==> r[i] == h[i].score.value
    ensures forall i :: 0 <= i < |r| && h[i].score.None? ==> r[i] == 0
    ensures forall i :: 0 <= i < |r| ==> r[i] == History.HistoryStatus(h)[i].tong
  {
    seq(Min(70, |h|), i requires 0 <= i < Min(70, |h|) => History.ScoreOf(h[i]))
  }

  /** `xs.filter(s => s === v).length`. */
  function CountOf(xs: seq<int>, v: int): (n: nat)
    ensures n == multiset(xs)[v]
  {
    if xs == [] then 0
    else
      assert xs == [xs[0]] + xs[1..];
      (if xs[0] == v then 1 else 0) + CountOf(xs[1..], v)
  }

  /** `xs.indexOf(v)`: the first index holding `v`, or -1. */
  function IndexOf(xs: seq<int>, v: int): (k: int)
    ensures k == -1 <==> v !in xs
    ensures k != -1 ==> 0 <= k < |xs| && xs[k] == v
    ensures forall j :: 0 <= j < k ==> xs[j] != v
  {
    if xs == [] then -1
    else if xs[0] == v then 0
    else
      var k := IndexOf(xs[1..], v);
      if k == -1 then -1 else k + 1
  }

  /** `timeNotSeen`: rounds since `v` last came up, or the window length. */
  function TimeNotSeen(xs: seq<int>, v: int): nat {
    var k := IndexOf(xs, v);
    if k == -1 then |xs| else k
  }

  function RealAbs(a: real): real {
    if a < 0.0 then -a else a
  }

  function RealMin(a: real, b: real): real {
    if a <= b then a else b
  }

  /** `Math.abs(recentFreq - probability) * 100`, the frequency being taken
      over 70 whatever the window length. */
  function FreqScore(recent: seq<int>, s: int): (r: real)
    ensures r >= 0.0
  {
    RealAbs(CountOf(recent, s) as real / 70.0 - SumTable.Probability(s)) * 100.0
  }

  /** `Math.min(timeNotSeen / 20, 1)`. */
  function TimeScore(recent: seq<int>, s: int): (r: real)
    ensures 0.0 <= r <= 1.0
  {
    RealMin(TimeNotSeen(recent, s) as real / 20.0, 1.0)
  }

  /** 1.5 when `s` is on the side of the predicted class, otherwise 1. */
  function PatternScore(s: int, c: Cls): real {
    if (s >= 11 && c == T) || (s < 11 && c == X) then 1.5 else 1.0
  }

  /** `totalScore` of one sum. */
  function Score(recent: seq<int>, s: int, c: Cls): (r: real)
    ensures PatternScore(s, c) + 1.5 * FreqScore(recent, s) <= r
    ensures r <= PatternScore(s, c) + 1.5 * FreqScore(recent, s) + 2.0
  {
    FreqScore(recent, s) * 1.5 + TimeScore(recent, s) * 2.0 + PatternScore(s, c) * 1.0
  }

  /** Candidates listed with their scores, in the order given. */
  function Tabulate(cands: seq<int>, f: int -> real): (es: seq<Scored>)
    ensures |es| == |cands|
    ensures forall i :: 0 <= i < |cands| ==> es[i] == Scored(cands[i], f(cands[i]))
  {
    seq(|cands|, i requires 0 <= i < |cands| => Scored(cands[i], f(cands[i])))
  }

  /** The score of each sum, as a function. */
  function SumScore(recent: seq<int>, c: Cls): int -> real {
    s => Score(recent, s, c)
  }

  // Ranking.

  /** `a` is listed before `b`: higher score first, ties by smaller sum. */
  predicate Before(a: Scored, b: Scored) {
    a.score > b.score || (a.score == b.score && a.sum < b.sum)
  }

  predicate Ranked(es: seq<Scored>) {
    forall i, j :: 0 <= i < j < |es| ==> Before(es[i], es[j])
  }

  predicate AscendingSums(es: seq<Scored>) {
    forall i, j :: 0 <= i < j < |es| ==> es[i].sum < es[j].sum
  }

  /** One step of a stable sort on descending score: `e` goes before every
      entry whose score it reaches. */
  function Insert(e: Scored, es: seq<Scored>): (r: seq<Scored>)
    ensures multiset(r) == multiset{e} + multiset(es)
    ensures |r| == |es| + 1
  {
    if es == [] || e.score >= es[0].score then [e] + es
    else
      assert es == [es[0]] + es[1..];
      [es[0]] + Insert(e, es[1..])
  }

  /** The stable sort by `scoreB - scoreA`, as an insertion sort that keeps
      earlier entries ahead of later ones with the same score. */
  function SortByScore(es: seq<Scored>): (r: seq<Scored>)
    ensures multiset(r) == multiset(es)
    ensures |r| == |es|
  {
    if es == [] then []
    else
      assert es == [es[0]] + es[1..];
      Insert(es[0], SortByScore(es[1..]))
  }

  /** Inserting an entry whose sum precedes every other keeps the order. */
  lemma {:induction false} InsertRanked(e: Scored, es: seq<Scored>)
    requires Ranked(es)
    requires forall y :: y in es ==> e.sum < y.sum
    ensures Ranked(Insert(e, es))
  {
    if es == [] || e.score >= es[0].score {
      var r := [e] + es;
      forall i, j | 0 <= i < j < |r|
        ensures Before(r[i], r[j])
      {
        if i > 0 {
          assert Before(es[i - 1], es[j - 1]);
        } else {
          assert r[j] == es[j - 1] && r[j] in es;
          if j > 1 {
            assert Before(es[0], es[j - 1]);
          }
        }
      }
    } else {
      var rest := Insert(e, es[1..]);
      assert Ranked(es[1..]) by {
        forall i, j | 0 <= i < j < |es[1..]|
          ensures Before(es[1..][i], es[1..][j])
        {
          assert Before(es[i + 1], es[j + 1]);
        }
      }
      forall y | y in es[1..]
        ensures e.sum < y.sum
      {
        assert y in es;
      }
      InsertRanked(e, es[1..]);
      var r := [es[0]] + rest;
      forall i, j | 0 <= i < j < |r|
        ensures Before(r[i], r[j])
      {
        if i > 0 {
          assert Before(rest[i - 1], rest[j - 1]);
        } else {
          var y := rest[j - 1];
          assert y in multiset(rest);
          assert y == e || y in multiset(es[1..]);
          if y != e {
            assert y in es[1..];
            var k :| 0 <= k < |es[1..]| && es[1..][k] == y;
            assert Before(es[0], es[k + 1]);
          }
        }
      }
    }
  }

  /** On entries listed by ascending sum, the sort yields the order `Before`. */
  lemma {:induction false} SortRanked(es: seq<Scored>)
    requires AscendingSums(es)
    ensures Ranked(SortByScore(es))
  {
    if es != [] {
      var tail := es[1..];
      assert AscendingSums(tail) by {
        forall i, j | 0 <= i < j < |tail|
          ensures tail[i].sum < tail[j].sum
        {
          assert es[i + 1].sum < es[j + 1].sum;
        }
      }
      SortRanked(tail);
      var sorted := SortByScore(tail);
      forall y | y in sorted
        ensures es[0].sum < y.sum
      {
        assert y in multiset(sorted);
        assert y in multiset(tail);
        var k :| 0 <= k < |tail| && tail[k] == y;
        assert es[0].sum < es[k + 1].sum;
      }
      InsertRanked(es[0], sorted);
    }
  }

  /** `predictSums`: the candidates with their scores, listed in ascending
      sum order as `Object.entries` lists integer keys, sorted by score; the
      first three sums are kept. */
  function PredictSums(h: seq<History.Round>, c: Cls): (r: seq<int>)
    ensures |r| == 3
    ensures forall i :: 0 <= i < 3 ==> 4 <= r[i] <= 17 && History.ClassOf(r[i]) == c
    ensures r[0] != r[1] && r[1] != r[2] && r[0] != r[2]
  {
    var recent := RecentSums(h);
    var f := SumScore(recent, c);
    var cands := Candidates(c);
    TabulateListing(cands, f);
    SortListing(Tabulate(cands, f), f, cands);
    var ranked := SortByScore(Tabulate(cands, f));
    BestThree(ranked, f, cands);
    [ranked[0].sum, ranked[1].sum, ranked[2].sum]
  }

  /** Every entry is a candidate carrying its own score. */
  predicate Faithful(es: seq<Scored>, f: int -> real, cands: seq<int>) {
    forall k :: 0 <= k < |es| ==> es[k].sum in cands && es[k].score == f(es[k].sum)
  }

  /** Every candidate is listed with its own score. */
  predicate Complete(es: seq<Scored>, f: int -> real, cands: seq<int>) {
    forall s :: s in cands ==> Scored(s, f(s)) in es
  }

  /** Tabulating candidates listed in ascending order gives a faithful and
      complete listing by ascending sum. */
  lemma TabulateListing(cands: seq<int>, f: int -> real)
    requires forall i, j :: 0 <= i < j < |cands| ==> cands[i] < cands[j]
    ensures var es := Tabulate(cands, f);
            AscendingSums(es) && Faithful(es, f, cands) && Complete(es, f, cands)
  {
    var es := Tabulate(cands, f);
    forall s | s in cands
      ensures Scored(s, f(s)) in es
    {
      var m :| 0 <= m < |cands| && cands[m] == s;
      assert es[m] == Scored(s, f(s));
    }
  }

  /** Sorting a faithful, complete listing by ascending sum ranks it by
      `Before` and keeps it faithful and complete. */
  lemma SortListing(es: seq<Scored>, f: int -> real, cands: seq<int>)
    requires AscendingSums(es) && Faithful(es, f, cands) && Complete(es, f, cands)
    ensures var r := SortByScore(es);
            Ranked(r) && Faithful(r, f, cands) && Complete(r, f, cands)
  {
    var r := SortByScore(es);
    SortRanked(es);
    forall k | 0 <= k < |r|
      ensures r[k].sum in cands && r[k].score == f(r[k].sum)
    {
      assert r[k] in multiset(es);
      var m :| 0 <= m < |es| && es[m] == r[k];
    }
    forall s | s in cands
      ensures Scored(s, f(s)) in r
    {
      assert Scored(s, f(s)) in multiset(r);
    }
  }

  /** In a ranked list, an entry whose sum is not among the first three
      ranks after each of them. */
  lemma AfterTopThree(ranked: seq<Scored>, x: Scored)
    requires |ranked| >= 3 && Ranked(ranked)
    requires x in ranked
    requires x.sum != ranked[0].sum && x.sum != ranked[1].sum && x.sum != ranked[2].sum
    ensures forall i :: 0 <= i < 3 ==> Before(ranked[i], x)
  {
    var k :| 0 <= k < |ranked| && ranked[k] == x;
    assert k >= 3;
    assert Before(ranked[0], ranked[k]) && Before(ranked[1], ranked[k]) && Before(ranked[2], ranked[k]);
  }

  /** The first three sums of a ranked, faithful and complete listing: drawn
      from the candidates, pairwise distinct, best first, and ahead of every
      candidate left out. */
  lemma BestThree(ranked: seq<Scored>, f: int -> real, cands: seq<int>)
    requires |ranked| >= 3 && Ranked(ranked)
    requires Faithful(ranked, f, cands) && Complete(ranked, f, cands)
    ensures var r := [ranked[0].sum, ranked[1].sum, ranked[2].sum];
            && (forall i :: 0 <= i < 3 ==> r[i] in cands)
            && r[0] != r[1] && r[1] != r[2] && r[0] != r[2]
            && (forall i, j :: 0 <= i < j < 3 ==> Before(Scored(r[i], f(r[i])), Scored(r[j], f(r[j]))))
            && (forall s, i :: s in cands && s !in r && 0 <= i < 3 ==> Before(Scored(r[i], f(r[i])), Scored(s, f(s))))
  {
    var r := [ranked[0].sum, ranked[1].sum, ranked[2].sum];
    assert Before(ranked[0], ranked[1]) && Before(ranked[1], ranked[2]) && Before(ranked[0], ranked[2]);
    assert ranked[0] == Scored(r[0], f(r[0]));
    assert ranked[1] == Scored(r[1], f(r[1]));
    assert ranked[2] == Scored(r[2], f(r[2]));
    forall s, i | s in cands && s !in r && 0 <= i < 3
      ensures Before(Scored(r[i], f(r[i])), Scored(s, f(s)))
    {
      AfterTopThree(ranked, Scored(s, f(s)));
    }
  }

  /** The three sums come from the predicted class, are pairwise distinct,
      are listed best first (ties by smaller sum), and no candidate left out
      ranks ahead of any of them. */
  lemma PredictSumsRanked(h: seq<History.Round>, c: Cls)
    ensures var r := PredictSums(h, c);
            var recent := RecentSums(h);
            && (forall i :: 0 <= i < 3 ==> r[i] in Candidates(c))
            && r[0] != r[1] && r[1] != r[2] && r[0] != r[2]
            && (forall i, j :: 0 <= i < j < 3 ==>
                  Before(Scored(r[i], Score(recent, r[i], c)), Scored(r[j], Score(recent, r[j], c))))
            && (forall s, i :: s in Candidates(c) && s !in r && 0 <= i < 3 ==>
                  Before(Scored(r[i], Score(recent, r[i], c)), Scored(s, Score(recent, s, c))))
  {
    var recent := RecentSums(h);
    var f := SumScore(recent, c);
    var cands := Candidates(c);
    TabulateListing(cands, f);
    SortListing(Tabulate(cands, f), f, cands);
    BestThree(SortByScore(Tabulate(cands, f)), f, cands);
  }

  /** Every candidate gets the full pattern bonus: the bonus never
      distinguishes one candidate from another. */
  lemma PatternScoreUniform(c: Cls, s: int)
    requires s in Candidates(c)
    ensures PatternScore(s, c) == 1.5
  {
  }

  /** A sum absent from the window has waited the whole window, so at least
      20 rounds of history saturate its time score; otherwise the time score
      is the distance to its latest occurrence over 20, capped at 1. */
  lemma TimeScoreByLastSeen(recent: seq<int>, s: int, k: nat)
    requires (k < |recent| && recent[k] == s && forall j :: 0 <= j < k ==> recent[j] != s)
          || (k == |recent| && s !in recent)
    ensures TimeScore(recent, s) == RealMin(k as real / 20.0, 1.0)
    ensures k >= 20 ==> TimeScore(recent, s) == 1.0
  {
    var i := IndexOf(recent, s);
    assert i == -1 ==> k == |recent|;
  }

  /** A sum absent from the window scores its full probability, in percent. */
  lemma UnseenFreqScore(recent: seq<int>, s: int)
    requires s !in recent
    ensures FreqScore(recent, s) == SumTable.Probability(s) * 100.0
  {
    assert multiset(recent)[s] == 0;
  }

  /** The frequency score of a possible sum compares its count in the window,
      over 70, with its share of the 216 dice outcomes. */
  lemma FreqScoreByCount(recent: seq<int>, s: int)
    requires 3 <= s <= 18
    ensures FreqScore(recent, s) ==
            RealAbs(multiset(recent)[s] as real / 70.0 - SumTable.Ways(s) as real / 216.0) * 100.0
  {
    var p := SumTable.Probability(s);
    assert p == SumTable.Ways(s) as real / 216.0;
  }

  /** The total score of a candidate, term by term: 1.5 × the frequency
      score, 2 × the time score for the index k of its latest occurrence (or
      the window length when it is absent), and the pattern bonus 1.5. */
  lemma ScoreByFormula(recent: seq<int>, c: Cls, s: int, k: nat)
    requires s in Candidates(c)
    requires (k < |recent| && recent[k] == s && forall j :: 0 <= j < k ==> recent[j] != s)
          || (k == |recent| && s !in recent)
    ensures Score(recent, s, c) ==
            1.5 * (RealAbs(multiset(recent)[s] as real / 70.0 - SumTable.Ways(s) as real / 216.0) * 100.0)
            + 2.0 * RealMin(k as real / 20.0, 1.0)
            + 1.5
  {
    FreqScoreByCount(recent, s);
    TimeScoreByLastSeen(recent, s, k);
    PatternScoreUniform(c, s);
  }

  /** Every score is at least the pattern bonus of 1.5 given to candidates. */
  lemma ScoreAtLeastBonus(recent: seq<int>, c: Cls, s: int)
    requires s in Candidates(c)
    ensures Score(recent, s, c) >= 1.5
  {
    PatternScoreUniform(c, s);
  }
}

=== FILE: sum_table.dfy ===
/** The theoretical distribution of the sum of three six-sided dice
    (`getTrueSumProbabilities`, server.js:46-62), kept as integer counts over
    the 216 equally likely outcomes. */
module SumTable {
  import opened Basics

  const TotalOutcomes: nat := 216

  /** Number of dice triples (d1, d2, d3), each in 1..6, whose sum is `s`:
      the three nested loops of the source, one function per loop level. */
  function Ways(s: int): nat {
    CountFirst(s, 1)
  }

  function CountFirst(s: int, d1: int): nat
    requires 1 <= d1 <= 7
    decreases 7 - d1, s
  {
    if d1 > 6 then 0 else CountSecond(s, d1, 1) + CountFirst(s, d1 + 1)
  }

  function CountSecond(s: int, d1: int, d2: int): nat
    requires 1 <= d2 <= 7
    decreases 7 - d2, s, d1
  {
    if d2 > 6 then 0 else CountThird(s, d1, d2, 1) + CountSecond(s, d1, d2 + 1)
  }

  function CountThird(s: int, d1: int, d2: int, d3: int): nat
    requires 1 <= d3 <= 7
    decreases 7 - d3, s, d1, d2
  {
    if d3 > 6 then 0 else (if d1 + d2 + d3 == s then 1 else 0) + CountThird(s, d1, d2, d3 + 1)
  }

  /** The innermost loop finds the third die at most once: exactly when the
      remaining value s - d1 - d2 is a face not yet passed. */
  lemma {:induction false} CountThirdClosed(s: int, d1: int, d2: int, d3: int)
    requires 1 <= d3 <= 7
    ensures CountThird(s, d1, d2, d3) == if d3 <= s - d1 - d2 <= 6 then 1 else 0
    decreases 7 - d3, s, d1, d2
  {
    if d3 <= 6 {
      CountThirdClosed(s, d1, d2, d3 + 1);
    }
  }

  /** Number of faces d2' in d2..6 for which some third face completes `t = s - d1`. */
  function PairsFrom(t: int, d2: int): nat {
    var lo := Max(d2, t - 6);
    var hi := Min(6, t - 1);
    if lo <= hi then hi - lo + 1 else 0
  }

  lemma {:induction false} CountSecondClosed(s: int, d1: int, d2: int)
    requires 1 <= d2 <= 7
    ensures CountSecond(s, d1, d2) == PairsFrom(s - d1, d2)
    decreases 7 - d2, s, d1
  {
    if d2 <= 6 {
      CountThirdClosed(s, d1, d2, 1);
      CountSecondClosed(s, d1, d2 + 1);
    }
  }

  /** The count table the source builds: one entry per sum that occurs. */
  function SumCounts(): (m: map<int, nat>)
    ensures forall s :: s in m <==> Ways(s) > 0
    ensures forall s :: s in m ==> m[s] == Ways(s)
  {
    WaysSupport();
    map s | 3 <= s <= 18 :: Ways(s)
  }

  /** `getTrueSumProbabilities`: each occurring sum mapped to its count over 216. */
  function TrueSumProbabilities(): (m: map<int, real>)
    ensures forall s :: s in m <==> 3 <= s <= 18
    ensures forall s :: s in m ==> 0.0 < m[s] && m[s] * (TotalOutcomes as real) == Ways(s) as real
  {
    var counts := SumCounts();
    WaysSupport();
    map s | s in counts :: counts[s] as real / TotalOutcomes as real
  }

  /** `sumProbabilities[sum] || 0`: the probability of `s`, zero when absent. */
  function Probability(s: int): (p: real)
    ensures 3 <= s <= 18 ==> p * (TotalOutcomes as real) == Ways(s) as real
    ensures s < 3 || 18 < s ==> p == 0.0
    ensures p >= 0.0
  {
    var m := TrueSumProbabilities();
    if s in m then m[s] else 0.0
  }

  /** No roll of three dice sums outside 3..18. */
  lemma WaysOutside(s: int)
    requires s < 3 || 18 < s
    ensures Ways(s) == 0
  {
    WaysClosed(s);
  }

  /** Only the sums 3..18 occur, and each of them does. */
  lemma WaysSupport()
    ensures forall s :: Ways(s) > 0 <==> 3 <= s <= 18
  {
    forall s
      ensures Ways(s) > 0 <==> 3 <= s <= 18
    {
      WaysClosed(s);
      ClosedPositive(s);
    }
  }

  lemma ClosedPositive(s: int)
    ensures Closed(s) > 0 <==> 3 <= s <= 18
  {
    if 3 <= s <= 18 {
      var d1 := if s <= 8 then 1 else 6;
      assert PairsFrom(s - d1, 1) > 0;
    }
  }

  /** The closed form of the enumeration: for each first die, the number of
      (second, third) pairs completing the sum. */
  function Closed(s: int): nat {
    PairsFrom(s - 1, 1) + PairsFrom(s - 2, 1) + PairsFrom(s - 3, 1)
    + PairsFrom(s - 4, 1) + PairsFrom(s - 5, 1) + PairsFrom(s - 6, 1)
  }

  lemma WaysClosed(s: int)
    ensures Ways(s) == Closed(s)
  {
    CountSecondClosed(s, 1, 1);
    CountSecondClosed(s, 2, 1);
    CountSecondClosed(s, 3, 1);
    CountSecondClosed(s, 4, 1);
    CountSecondClosed(s, 5, 1);
    CountSecondClosed(s, 6, 1);
    assert CountFirst(s, 6) == CountSecond(s, 6, 1) + CountFirst(s, 7);
    assert CountFirst(s, 5) == CountSecond(s, 5, 1) + CountFirst(s, 6);
    assert CountFirst(s, 4) == CountSecond(s, 4, 1) + CountFirst(s, 5);
    assert CountFirst(s, 3) == CountSecond(s, 3, 1) + CountFirst(s, 4);
    assert CountFirst(s, 2) == CountSecond(s, 2, 1) + CountFirst(s, 3);
  }

  /** The distribution is symmetric about 10.5: a sum and its mirror
      21 - s (turn every die upside down) are equally likely. */
  lemma WaysSymmetric(s: int)
    ensures Ways(s) == Ways(21 - s)
  {
    WaysClosed(s);
    WaysClosed(21 - s);
    ClosedSymmetric(s);
  }

  lemma ClosedSymmetric(s: int)
    ensures Closed(s) == Closed(21 - s)
  {
    var m := 21 - s;
    PairsSymmetric(s - 1);
    assert PairsFrom(s - 1, 1) == PairsFrom(m - 6, 1);
    PairsSymmetric(s - 2);
    assert PairsFrom(s - 2, 1) == PairsFrom(m - 5, 1);
    PairsSymmetric(s - 3);
    assert PairsFrom(s - 3, 1) == PairsFrom(m - 4, 1);
    PairsSymmetric(s - 4);
    assert PairsFrom(s - 4, 1) == PairsFrom(m - 3, 1);
    PairsSymmetric(s - 5);
    assert PairsFrom(s - 5, 1) == PairsFrom(m - 2, 1);
    PairsSymmetric(s - 6);
    assert PairsFrom(s - 6, 1) == PairsFrom(m - 1, 1);
  }

  /** Two dice: a total and its mirror 14 - t have as many pairs. */
  lemma PairsSymmetric(t: int)
    ensures PairsFrom(t, 1) == PairsFrom(14 - t, 1)
  {
  }

  /** Sum of Ways(s) for lo <= s < hi. */
  function WaysBetween(lo: int, hi: int): nat
    decreases hi - lo
  {
    if hi <= lo then 0 else Ways(lo) + WaysBetween(lo + 1, hi)
  }

  function ClosedBetween(lo: int, hi: int): nat
    decreases hi - lo
  {
    if hi <= lo then 0 else Closed(lo) + ClosedBetween(lo + 1, hi)
  }

  lemma {:induction false} BetweenClosed(lo: int, hi: int)
    ensures WaysBetween(lo, hi) == ClosedBetween(lo, hi)
    decreases hi - lo
  {
    if lo < hi {
      WaysClosed(lo);
      BetweenClosed(lo + 1, hi);
    }
  }

  lemma {:induction false} ClosedSplit(lo: int, mid: int, hi: int)
    requires lo <= mid <= hi
    ensures ClosedBetween(lo, hi) == ClosedBetween(lo, mid) + ClosedBetween(mid, hi)
    decreases mid - lo
  {
    if lo < mid {
      ClosedSplit(lo + 1, mid, hi);
    }
  }

  lemma {:induction false} ClosedOutside(lo: int, hi: int)
    requires hi <= 3 || 19 <= lo
    ensures ClosedBetween(lo, hi) == 0
    decreases hi - lo
  {
    if lo < hi {
      ClosedOutside(lo + 1, hi);
    }
  }

  /** Any range of sums covering 3..18 accounts for all 216 outcomes. */
  lemma TotalOutcomesCounted(lo: int, hi: int)
    requires lo <= 3 && 19 <= hi
    ensures WaysBetween(lo, hi) == TotalOutcomes
  {
    BetweenClosed(lo, hi);
    ClosedSplit(lo, 11, hi);
    ClosedLowHalf(lo);
    ClosedHighHalf(hi);
  }

  /** The Xỉu sums (up to 10) and the Tài sums (11 and up) each take exactly
      half of the 216 outcomes. */
  lemma ClassesEquallyLikely(lo: int, hi: int)
    requires lo <= 3 && 19 <= hi
    ensures WaysBetween(lo, 11) == 108
    ensures WaysBetween(11, hi) == 108
  {
    BetweenClosed(lo, 11);
    BetweenClosed(11, hi);
    ClosedLowHalf(lo);
    ClosedHighHalf(hi);
  }

  lemma ClosedLowHalf(lo: int)
    requires lo <= 3
    ensures ClosedBetween(lo, 11) == 108
  {
    ClosedSplit(lo, 3, 11);
    ClosedOutside(lo, 3);
    ClosedSplit(3, 7, 11);
    assert ClosedBetween(7, 11) == 88;
    assert ClosedBetween(3, 7) == 20;
  }

  lemma ClosedHighHalf(hi: int)
    requires 19 <= hi
    ensures ClosedBetween(11, hi) == 108
  {
    ClosedSplit(11, 19, hi);
    ClosedOutside(19, hi);
    ClosedSplit(11, 15, 19);
    assert ClosedBetween(15, 19) == 20;
    assert ClosedBetween(11, 15) == 88;
  }
}

=== FILE: votes.dfy ===
/** What each analyzer returns: an optional class, an integer certainty, and
    a description. The source's Vietnamese description strings are replaced by
    tags; only which tag is produced, and the order of the tags in the final
    explanation, are modelled. */
module Votes {
  import opened Basics

  datatype Reason =
    // analyzeMarkovChainAndStreak
    | MarkovTooShort
    | MarkovContinue(streak: nat)
    | MarkovReverse(streak: nat)
    | MarkovTransition(key: (Cls, Cls), predicted: Cls)
    | MarkovNoPattern
    // analyzeMultiTimeframeBalance
    | BalanceTooShort
    | BalanceShortTerm
    | BalanceLongTerm
    | BalanceSteady
    // analyzeHeuristicPatterns
    | HeuristicTooShort
    | HeuristicThreeOne
    | HeuristicOneOneTwo
    | HeuristicNone
    // predictAdvanced
    | NoSignal
    | AwaitMoreRounds

  /** One analyzer's result: `prediction: null` is `None`. */
  datatype Vote = Vote(prediction: Option<Cls>, certainty: nat, reason: Reason)

  /** What a vote adds to the explanation: its description when it has an
      opinion, nothing otherwise. */
  function Said(v: Vote): seq<Reason> {
    if v.prediction.Some? then [v.reason] else []
  }

  /** The shape every analyzer's vote has: no opinion carries certainty 0, an
      opinion carries a certainty between 50 and 100. */
  predicate WellFormed(v: Vote) {
    && (v.prediction.None? ==> v.certainty == 0)
    && (v.prediction.Some? ==> 50 <= v.certainty <= 100)
  }
}
